=== FILE: README.md ===
# MediaDownloader window and settings, modelled in Dafny

MediaDownloader is a desktop tool: the user pastes a media URL, the app fetches
the video's metadata, and then downloads it in a chosen quality, with live progress
and cancellation. This project models two parts of it.

- **The preferences store** (`core/settings.py`). `SettingsManager` holds a
  string-keyed map with two keys. `download_path` defaults to `<home>/Downloads`.
  `cookies_browser` defaults to `"None"`. The JSON file is abstracted to
  what loading it can observe: `Missing`, `Corrupt`, `Undecodable`,
  `NotAnObject` or `Stored(map)`. Every save has an outcome chosen by the environment:
  `Written`, `OpenFailed` (the file is untouched) or `WriteFailed` (the
  file was already truncated, so it is left as invalid JSON).
- **The main-window controller** (`ui/main_window.py`), with the widgets
  stripped away. Each handler is a pure transition over a `Window` record.
  The record holds the URL field, `current_url`, and the enabled state of
  Download, Cancel and each input widget. It also holds the combo texts,
  the status label, the progress bar, the video card, the location label,
  `last_filename`, `_is_closing`, whether a close was accepted, and the
  settings manager. Requests to the download worker, the worker thread's
  quit and the message boxes come back as a list of `Signal`s. The module
  also holds `get_short_path` and the quality-to-options mapping of
  `start_download` (module `Options`). That mapping builds a
  `DownloadOptions` record, not a dict.

Module `Lifecycle` drives the window with events. User actions reach a
handler only through an enabled widget. The Paste and Clear buttons are
never disabled. Worker reports reach their handlers directly. From
`Init`, every reachable window keeps these invariants:

- Download and Cancel are never both enabled.
- The browser combo is never disabled.
- Both combos show one of their items.
- The location label shows the configured path.
- After a download request, the window sends no second one before the
  worker sends some reply. A late reply to an earlier fetch counts as
  one.

A download does not have to follow a successful fetch of the same URL.
After a failed fetch, `on_error` re-enables Download with the URL of the
previous successful fetch (`Lifecycle.FailedFetchKeepsPreviousUrl`).
Nor does a download have to be answered before the next one is
requested. The URL field and Paste stay enabled while a fetch runs, so
two fetches can be outstanding. If the second reply arrives after a
download of the first video has started, `on_info_ready` turns Download
on and Cancel off. A second download request can then go out
(`Lifecycle.StaleInfoAllowsSecondDownload`), and a close is accepted
at once, with no cancel (`Lifecycle.StaleInfoLetsCloseSkipCancel`).
Likewise, Clear stays usable during a download. It re-enables the inputs
but leaves Cancel enabled (`Lifecycle.ClearDuringDownload`).

Environment inputs are parameters: the home directory, the path separator,
the text of the clipboard, the directory the folder dialog returns, the
outcome of each settings save, and the reports of the worker.

## Model

| member | source | states |
|---|---|---|
| Settings.JoinPath | core/settings.py:8 | `Path(home) / "Downloads"`, for `home` in normal form as `Path.home()` returns it, ends in the folder name. An empty `home` gives the name alone. A `home` that already ends in the separator is followed directly by the name, so no separator is doubled. Any other `home` is followed by one separator and the name. |
| Settings.Load | core/settings.py:11-19 | A stored object is loaded as it is. A missing, corrupt, undecodable or non-object file gives exactly `{download_path: default}` (the corrected form). |
| Settings.New | core/settings.py:6-9 | A fresh manager takes its default path from the home directory and loads the file it is given with the corrected `Load` (see "## Findings"). |
| Settings.Lookup | core/settings.py:28-36 | `settings.get(key, default)`: the stored value when the key is present, the default otherwise. |
| Settings.GetDownloadPath | core/settings.py:28-29 | The stored `download_path` when present, otherwise the manager's default path. |
| Settings.GetCookiesBrowser | core/settings.py:35-36 | The stored `cookies_browser` when present, otherwise `"None"`. |
| Settings.Save | core/settings.py:21-26 | Saving never changes the in-memory map. A written file reloads as that map. An open failure leaves the file unchanged. A write failure leaves a file that reloads as the defaults. |
| Settings.Put | core/settings.py:31-33 | A setter sets its key to the value and leaves every other entry unchanged. After a successful save the file reloads as the new map. |
| Settings.SetDownloadPath | core/settings.py:31-33 | Afterwards `get_download_path` returns the new path. The browser and every other key are unchanged. |
| Settings.SetCookiesBrowser | core/settings.py:38-40 | Afterwards `get_cookies_browser` returns the new browser. The path and every other key are unchanged. |
| Settings.DefaultsWithoutFile | core/settings.py:8-13 | With no file the getters report `<home>/Downloads` and `"None"`. |
| Settings.CorruptFileLikeMissing | core/settings.py:15-19 | A file whose reading raises IOError or whose parsing raises JSONDecodeError loads the same map as a missing one, and the getters report the defaults. |
| Settings.MissingKeysFallBack | core/settings.py:28-36 | For a loaded map, each getter returns the stored value when its key is present, and its own default when it is absent. |
| Settings.FailedSaveKeepsUpdate | core/settings.py:21-40 | A failed save keeps the in-memory update. An open failure leaves the file as it was. A write failure makes the next start see the defaults. |
| Settings.ReloadAfterSave | core/settings.py:11-24 | Round trip: after a successful save, a fresh manager on the same home directory reports the same path and the same browser. |
| Settings.LoadAsWritten | core/settings.py:11-19 | As written, exactly a non-object JSON file is kept as a non-dict, and exactly a file the text decoder rejects raises out of the constructor. Every other file loads as the corrected `Load` does. |
| Settings.LookupAsWritten | core/settings.py:28-29 | As written, a getter on a non-dict raises, and there is no manager after a raising load (both None). On a dict it returns the stored value or the default. |
| Settings.NonObjectFileCrashes | core/settings.py:11-36 | As written, a file holding `[]` makes `get_cookies_browser` raise, while a corrupt file yields `"None"`. |
| Settings.UndecodableFileCrashes | core/settings.py:15-19 | As written, a file that is not valid text makes the constructor raise, while a file that is not valid JSON loads the defaults. |
| Settings.LoadCorrectsOnlyNonObjects | core/settings.py:11-19 | The corrected load differs from the code only on non-object and undecodable files, and gives both the corrupt-file defaults. |
| MainWindow.ShortPath | ui/main_window.py:192-195 | The result is at most 30 characters. A path that fits is unchanged. A longer one becomes `"..."` followed by its last 27 characters. |
| MainWindow.ShortPathIdempotent | ui/main_window.py:192-195 | Shortening twice is the same as shortening once. |
| MainWindow.Init | ui/main_window.py:21-162 | Built on the corrected `Settings.Load` (see "## Findings"). At start, Download and Cancel are off and all inputs are on. There is no URL and the window is not closing. The quality is "Best Quality". The browser combo shows the saved browser when it is one of its items, otherwise "None". The label shows the configured path. |
| MainWindow.CheckUrl | ui/main_window.py:209-221 | A blank URL changes nothing and sends nothing. Otherwise exactly one fetch request goes out, with the stripped URL and the browser. Download goes off, Cancel is kept and the bar turns busy. |
| MainWindow.PasteFromClipboard | ui/main_window.py:204-207 | The clipboard becomes the URL text. A fetch request goes out exactly when it is not blank, and it carries the stripped text. |
| MainWindow.CanonicalUrl | ui/main_window.py:234 | `original_url` when present and non-empty, otherwise `webpage_url`, otherwise none. |
| MainWindow.CardFor | ui/main_window.py:229-233 | The card is shown with the title, duration and thumbnail, or "Unknown Title", "--:--" and "" for absent ones. |
| MainWindow.OnInfoReady | ui/main_window.py:223-236 | Download goes on and Cancel off. The canonical URL becomes `current_url` and the card is filled. The inputs are unchanged and nothing is sent. |
| MainWindow.CancelDownload | ui/main_window.py:238-241 | Cancel goes off, the status reads "Cancelling..." and the worker's cancel flag is set. Nothing else changes. |
| MainWindow.StartDownload | ui/main_window.py:243-279 | With no current URL nothing happens. Otherwise Download goes off and Cancel on. The URL input, the location button and the quality combo go off; the browser combo is kept. Exactly one download request goes out, with the URL, the built options and the browser. |
| MainWindow.OnProgress | ui/main_window.py:281-294 | "downloading" moves the bar and the status to the percentage, with 0 when it is absent; one that `float()` or `int()` rejects (including `nan` and `inf`) is ignored, and so is one outside the 32-bit range that `setValue` refuses. "finished" remembers the file name (or "Unknown") and fills the bar. Any other status changes nothing. Buttons and inputs are untouched. |
| MainWindow.DisplayName | ui/main_window.py:302-305 | The name shown after a download is a suffix of the remembered file name (or "Unknown") with no separator. A name without the separator is shown whole. A name with one is cut to the text after the last. |
| MainWindow.CloseEvent | ui/main_window.py:164-173 | With Cancel on, the window marks itself closing, cancels and stays open. Otherwise the worker thread quits and the close is accepted, with nothing else changing. |
| MainWindow.OnFinished | ui/main_window.py:296-315 | While closing it only closes again. Otherwise Download and the three inputs the download disabled go on, and Cancel goes off. The file name is shown and success is reported. |
| MainWindow.OnError | ui/main_window.py:317-332 | While closing it only closes again. Otherwise Download and the three inputs go on and Cancel goes off. The bar is hidden, `current_url` is kept and the message is shown. |
| MainWindow.ResetAppState | ui/main_window.py:178-190 | The URL and `current_url` are cleared and Download goes off. All four inputs go on, Cancel is kept, and nothing is sent. |
| MainWindow.OnBrowserChanged | ui/main_window.py:175-176 | The preferences now report the new browser, with the same download path. Nothing else in the window changes. |
| MainWindow.ChangeLocation | ui/main_window.py:197-202 | A dismissed dialog changes nothing. A chosen directory becomes the download path and the label shows it shortened. The browser is unchanged. |
| Options.Update | ui/main_window.py:274 | `dict.update` with a preset: each key the preset has replaces the option's value, the others and `paths.home` are kept. |
| Options.UpdateIdempotent | ui/main_window.py:274-276 | Applying a preset twice equals applying it once. |
| Options.Build | ui/main_window.py:255-276 | `paths.home` is always the download path. "Best Quality" and unknown labels add nothing. 1080p, 720p and 480p add only the height-capped format. "Audio Only (MP3)" adds `bestaudio/best` and one FFmpegExtractAudio step to mp3 at 192. |
| Options.BuildIsSingleUpdate | ui/main_window.py:271-276 | The duplicated update gives the same options as a single one. |
| Options.PresetsCoverTheComboBox | ui/main_window.py:255-268 | The preset map has exactly the quality combo's items as keys. |
| Strings.IsSpaceIsPythonWhitespace | ui/main_window.py:210 | The whitespace `str.strip()` removes, written as ranges in `Strings.IsSpace`, is exactly CPython's table of 29 `str.isspace` code points. |
| Strings.Strip | ui/main_window.py:210 | `str.strip()`: the result begins and ends with non-whitespace, and is empty exactly when the input is blank. |
| Strings.StripIsTrim | ui/main_window.py:210 | The stripped URL is the slice of the input that starts right after its leading whitespace, with only whitespace around it. |
| Strings.Basename | ui/main_window.py:304-305 | POSIX `os.path.basename`: a suffix with no separator. It is shorter than the path exactly when the path contains the separator, and then a separator precedes it. |
| Lifecycle.Dispatch | ui/main_window.py:49-157 | A disabled button, field, combo or location button delivers nothing. A combo reports nothing unless its text changes to one of its items. A closed window reacts to nothing. |
| Lifecycle.DispatchRoutes | ui/main_window.py:49-157 | On an open window, an enabled widget delivers its event to its handler: the URL field, Return, Paste, Clear, Download, Cancel, both combos (on a change to an item) and the location button. Every worker report and a close request reach their slots. |
| Lifecycle.InitValid | ui/main_window.py:85-136 | The start-up window satisfies the invariant. |
| Lifecycle.DispatchKeepsValid | ui/main_window.py:164-332 | Every handler, reached through any event, keeps the invariant. |
| Lifecycle.RunKeepsValid | ui/main_window.py:164-332 | Any sequence of events keeps the invariant. |
| Lifecycle.ButtonsNeverBothEnabled | ui/main_window.py:130-332 | From start-up, Download and Cancel are never both enabled, whatever happens. |
| Lifecycle.DownloadOnlyFromEnabledButton | ui/main_window.py:243-279 | A download request comes only from a click on an enabled Download button with a non-empty URL, and it is the only signal sent. |
| Lifecycle.FetchOnlyFromReturnOrPaste | ui/main_window.py:204-221 | A fetch request comes only from Return or Paste. |
| Lifecycle.FetchCarriesStrippedUrl | ui/main_window.py:209-221 | The fetch request sent on Return or Paste carries a non-empty URL with no whitespace at either end. |
| Lifecycle.NoDownloadWithoutReply | ui/main_window.py:243-249 | While Download is off and the worker sends no reply of any kind, no event turns it on or sends a download request. |
| Lifecycle.OneDownloadInFlight | ui/main_window.py:243-279 | After one download request, no second one is sent until the worker sends some reply. The reply need not answer that download. |
| Lifecycle.TwoPastes | ui/main_window.py:204-221 | Paste stays usable while a fetch runs: two pastes of non-blank text send two fetch requests. |
| Lifecycle.InfoThenDownload | ui/main_window.py:224-279 | An info reply followed by a click on Download sends one download request for the URL that reply carried. |
| Lifecycle.StaleInfoAllowsSecondDownload | ui/main_window.py:204-279 | Two pastes send two fetch requests. Then an info reply and a click on Download send one download request. The other info reply and a second click send a second download request, although the first download has not been answered. |
| Lifecycle.StaleInfoLetsCloseSkipCancel | ui/main_window.py:164-173 | During a download a close sends a cancel. After an info reply arrives, a close is accepted at once and only quits the worker. |
| Lifecycle.ClosingIsSticky | ui/main_window.py:162-173 | Once the window has begun closing it stays closing. |
| Lifecycle.CloseDuringDownload | ui/main_window.py:164-173 | A close during a download cancels and is refused. The worker's next reply or a second close is then accepted, quits the worker and changes nothing else. |
| Lifecycle.CloseWhenIdle | ui/main_window.py:171-173 | With Cancel off, a close is accepted at once. |
| Lifecycle.BlankUrlDoesNothing | ui/main_window.py:209-212 | A blank URL, by Return or by Paste, sends nothing and changes nothing but the field's text. |
| Lifecycle.FailedFetchKeepsPreviousUrl | ui/main_window.py:317-332 | After a failed fetch, Download is on with the previous `current_url`, and clicking it requests that earlier video. |
| Lifecycle.ClearDuringDownload | ui/main_window.py:178-190 | Clear during a download sends no cancel, leaves Cancel on and re-enables the URL input. |

## Left out

- The download worker and its thread (`core/downloader.py` is not part of this model). Its requests are the `FetchInfo` and `DownloadAction` signals; its reports are events taken as inputs, in any order.
- File and JSON I/O. The settings file is abstracted to `SettingsFile`; the save outcome is an input. The "Failed to save settings" message is not modelled.
- Settings values that are not strings (e.g. `{"download_path": null}`): map values are strings here.
- The `filename` argument of `SettingsManager`: the window always uses the default `settings.json`.
- Settings.JoinPath: pathlib's collapsing of repeated separators and `.` components is not modelled. It never applies to the home directory, which `Path.home()` returns in normal form.
- MainWindow.Init: the browser combo's `findText` with `MatchFixedString` ignores case. The model matches the saved browser exactly, so a saved `"Chrome"` shows `"None"` here but `"chrome"` in the app.
- MainWindow.OnProgress: float parsing, `int()` truncation and the one-decimal status text are left out. The percentage is taken as an integer or as unparsable. The 32-bit limit of `setValue` is modelled: an integer outside it leaves the window unchanged.
- MainWindow.DisplayName: only the POSIX `os.path.basename` is modelled. On Windows, `ntpath` also splits on `/` and on drive letters.
- MainWindow.CanonicalUrl: a missing `webpage_url` gives None in the source and "" here. `current_url` is only read for truthiness and for sending, where the two behave the same.
- Metadata entries that are not strings are not modelled; `Info` holds string entries only.
- Qt itself: layout, styles (`ui/styles.py`, including its registry query), widget classes (`ui/components.py`), and the thumbnail HTTP fetch in `VideoCard.set_data`. Also left out: message-box modality, and the progress bar's range clamping and reset on `setRange`.
- After a close is accepted the application quits, so later events are ignored.
- The duplicated `request_download_action` signal declaration: it has no behaviour.

## Findings

| source | as written | input that shows it | evidently intended | confidence | as-written member | corrected member |
|---|---|---|---|---|---|---|
| core/settings.py:18 | The handler names JSONDecodeError and IOError only, so UnicodeDecodeError escapes it. | A `settings.json` holding a byte the text decoder rejects, such as 0xFF under UTF-8: `SettingsManager()` raises while the window is being built (ui/main_window.py:28). | A file that cannot be read as settings falls back to the defaults, as a corrupt one does. | medium, not executed | Settings.LoadAsWritten (shown by Settings.UndecodableFileCrashes) | Settings.Load (Settings.LoadCorrectsOnlyNonObjects) |
| core/settings.py:15-19 | A file that decodes to JSON that is not an object is kept as the settings. | `settings.json` containing `[]`: `get_cookies_browser` raises AttributeError while the window is being built (ui/main_window.py:95). | Any file that does not hold an object falls back to the defaults, as a corrupt one does. | medium, not executed | Settings.LoadAsWritten (shown by Settings.NonObjectFileCrashes) | Settings.Load (Settings.LoadCorrectsOnlyNonObjects) |

=== FILE: lifecycle.dfy ===
/** The window driven by events: user actions reach a handler only through
    an enabled widget, worker reports reach theirs directly, and nothing
    happens once the window has closed. The invariants here hold on every
    state reachable from `Init`. */
module Lifecycle {
  import Strings
  import Settings
  import Options
  import opened MainWindow

  datatype Event =
    | TypeUrl(text: string)                                         // editing the URL field
    | PressReturn                                                   // Return in the URL field
    | ClickPaste(clipboard: string)
    | ClickClear
    | ClickDownload
    | ClickCancel
    | PickQuality(quality: string)
    | PickBrowser(browser: string, outcome: Settings.SaveOutcome)
    | ClickChangeLocation(chosen: string, outcome: Settings.SaveOutcome)
    | RequestClose
    | WorkerInfoReady(info: Info)
    | WorkerProgress(report: ProgressReport)
    | WorkerFinished
    | WorkerError(message: string)

  /** The worker's answers to a request: the events after which Download can
      become enabled again. */
  predicate WorkerReply(e: Event) {
    e.WorkerInfoReady? || e.WorkerFinished? || e.WorkerError?
  }

  /** One event. The Paste and Clear buttons are never disabled; a combo box
      reports a change only when its text actually changes to one of its
      items. */
  function Dispatch(w: Window, e: Event, sep: char): (r: Step)
    ensures w.session.closed ==> r == Step(w, [])
    ensures e.ClickDownload? && !w.buttons.download ==> r == Step(w, [])
    ensures e.ClickCancel? && !w.buttons.cancel ==> r == Step(w, [])
    ensures (e.TypeUrl? || e.PressReturn?) && !w.inputs.urlField ==> r == Step(w, [])
    ensures e.ClickChangeLocation? && !w.inputs.changeLocation ==> r == Step(w, [])
    ensures e.PickQuality? && !(w.inputs.qualityCombo && e.quality in Options.QualityLabels) ==> r == Step(w, [])
    ensures e.PickBrowser? && !(w.inputs.browserCombo && e.browser in BrowserLabels && e.browser != w.prefs.browser) ==>
      r == Step(w, [])
  {
    if w.session.closed then Step(w, [])
    else
      match e
      case TypeUrl(text) =>
        if w.inputs.urlField then Step(w.(session := w.session.(urlText := text)), []) else Step(w, [])
      case PressReturn => if w.inputs.urlField then CheckUrl(w) else Step(w, [])
      case ClickPaste(clipboard) => PasteFromClipboard(w, clipboard)
      case ClickClear => ResetAppState(w)
      case ClickDownload => if w.buttons.download then StartDownload(w) else Step(w, [])
      case ClickCancel => if w.buttons.cancel then CancelDownload(w) else Step(w, [])
      case PickQuality(q) =>
        if w.inputs.qualityCombo && q in Options.QualityLabels then Step(w.(prefs := w.prefs.(quality := q)), [])
        else Step(w, [])
      case PickBrowser(b, outcome) =>
        if w.inputs.browserCombo && b in BrowserLabels && b != w.prefs.browser then
          OnBrowserChanged(w.(prefs := w.prefs.(browser := b)), b, outcome)
        else Step(w, [])
      case ClickChangeLocation(chosen, outcome) =>
        if w.inputs.changeLocation then ChangeLocation(w, chosen, outcome) else Step(w, [])
      case RequestClose => CloseEvent(w)
      case WorkerInfoReady(info) => OnInfoReady(w, info)
      case WorkerProgress(report) => OnProgress(w, report)
      case WorkerFinished => OnFinished(w, sep)
      case WorkerError(message) => OnError(w, message)
  }

  /** The other direction of the wiring: on an open window, an enabled
      widget delivers its event to its handler, and every worker report
      reaches its slot. */
  lemma DispatchRoutes(w: Window, e: Event, sep: char)
    requires !w.session.closed
    ensures e.TypeUrl? && w.inputs.urlField ==>
      Dispatch(w, e, sep) == Step(w.(session := w.session.(urlText := e.text)), [])
    ensures e.PressReturn? && w.inputs.urlField ==> Dispatch(w, e, sep) == CheckUrl(w)
    ensures e.ClickPaste? ==> Dispatch(w, e, sep) == PasteFromClipboard(w, e.clipboard)
    ensures e.ClickClear? ==> Dispatch(w, e, sep) == ResetAppState(w)
    ensures e.ClickDownload? && w.buttons.download ==> Dispatch(w, e, sep) == StartDownload(w)
    ensures e.ClickCancel? && w.buttons.cancel ==> Dispatch(w, e, sep) == CancelDownload(w)
    ensures e.PickQuality? && w.inputs.qualityCombo && e.quality in Options.QualityLabels ==>
      Dispatch(w, e, sep) == Step(w.(prefs := w.prefs.(quality := e.quality)), [])
    ensures e.PickBrowser? && w.inputs.browserCombo && e.browser in BrowserLabels && e.browser != w.prefs.browser ==>
      Dispatch(w, e, sep) == OnBrowserChanged(w.(prefs := w.prefs.(browser := e.browser)), e.browser, e.outcome)
    ensures e.ClickChangeLocation? && w.inputs.changeLocation ==>
      Dispatch(w, e, sep) == ChangeLocation(w, e.chosen, e.outcome)
    ensures e.RequestClose? ==> Dispatch(w, e, sep) == CloseEvent(w)
    ensures e.WorkerInfoReady? ==> Dispatch(w, e, sep) == OnInfoReady(w, e.info)
    ensures e.WorkerProgress? ==> Dispatch(w, e, sep) == OnProgress(w, e.report)
    ensures e.WorkerFinished? ==> Dispatch(w, e, sep) == OnFinished(w, sep)
    ensures e.WorkerError? ==> Dispatch(w, e, sep) == OnError(w, e.message)
  {
  }

  /** A sequence of events, with everything they sent out in order. */
  function Run(w: Window, events: seq<Event>, sep: char): Step
    decreases |events|
  {
    if events == [] then Step(w, [])
    else
      var first := Dispatch(w, events[0], sep);
      var rest := Run(first.window, events[1..], sep);
      Step(rest.window, first.signals + rest.signals)
  }

  /** What holds of every reachable window: Download and Cancel are never
      both enabled, the browser combo is never disabled, both combos show one
      of their items, and the location label shows the configured path. */
  predicate Valid(w: Window) {
    && ButtonsExclusive(w)
    && w.inputs.browserCombo
    && w.prefs.quality in Options.QualityLabels
    && w.prefs.browser in BrowserLabels
    && w.prefs.locationLabel == SaveToLabel(Settings.GetDownloadPath(w.prefs.settings))
  }

  lemma InitValid(file: Settings.SettingsFile, home: string, sep: char)
    ensures Valid(Init(file, home, sep))
  {
  }

  /** Every handler keeps the invariant, whatever the event. */
  lemma DispatchKeepsValid(w: Window, e: Event, sep: char)
    requires Valid(w)
    ensures Valid(Dispatch(w, e, sep).window)
  {
  }

  lemma {:induction false} RunKeepsValid(w: Window, events: seq<Event>, sep: char)
    requires Valid(w)
    ensures Valid(Run(w, events, sep).window)
    decreases |events|
  {
    if events != [] {
      DispatchKeepsValid(w, events[0], sep);
      RunKeepsValid(Dispatch(w, events[0], sep).window, events[1..], sep);
    }
  }

  /** From start-up, whatever happens, Download and Cancel are never both
      enabled. */
  lemma ButtonsNeverBothEnabled(file: Settings.SettingsFile, home: string, sep: char, events: seq<Event>)
    ensures ButtonsExclusive(Run(Init(file, home, sep), events, sep).window)
  {
    InitValid(file, home, sep);
    RunKeepsValid(Init(file, home, sep), events, sep);
  }

  /** A download request leaves only through an enabled Download button and
      a non-empty current URL, and it is the only thing sent. */
  lemma DownloadOnlyFromEnabledButton(w: Window, e: Event, sep: char, i: int)
    requires 0 <= i < |Dispatch(w, e, sep).signals| && Dispatch(w, e, sep).signals[i].DownloadAction?
    ensures e == ClickDownload && w.buttons.download && w.session.currentUrl != "" && !w.session.closed
    ensures Dispatch(w, e, sep).signals ==
      [DownloadAction(w.session.currentUrl,
                      Options.Build(w.prefs.quality, Settings.GetDownloadPath(w.prefs.settings)),
                      w.prefs.browser)]
  {
  }

  /** A fetch request comes only from Return or Paste. */
  lemma FetchOnlyFromReturnOrPaste(w: Window, e: Event, sep: char)
    ensures (exists s :: s in Dispatch(w, e, sep).signals && s.FetchInfo?) ==> e.PressReturn? || e.ClickPaste?
  {
  }

  /** The fetch request sent on Return or Paste carries a stripped,
      non-blank URL (with `FetchOnlyFromReturnOrPaste`, every fetch request
      does). */
  lemma FetchCarriesStrippedUrl(w: Window, e: Event, sep: char)
    requires e.PressReturn? || e.ClickPaste?
    ensures forall s :: s in Dispatch(w, e, sep).signals && s.FetchInfo? ==>
      s.url != "" && !Strings.IsSpace(s.url[0]) && !Strings.IsSpace(s.url[|s.url| - 1])
  {
    var r := Dispatch(w, e, sep);
    if w.session.closed || (e.PressReturn? && !w.inputs.urlField) {
      assert r.signals == [];
    } else {
      var text := if e.ClickPaste? then e.clipboard else w.session.urlText;
      if e.ClickPaste? {
        PasteReachesHandler(w, text, sep);
      } else {
        ReturnReachesHandler(w, sep);
      }
      CheckedUrlIsStripped(w.(session := w.session.(urlText := text)));
    }
  }

  lemma ReturnReachesHandler(w: Window, sep: char)
    requires !w.session.closed && w.inputs.urlField
    ensures Dispatch(w, PressReturn, sep) == CheckUrl(w)
  {
  }

  lemma CheckedUrlIsStripped(w: Window)
    ensures forall s :: s in CheckUrl(w).signals ==>
      s.FetchInfo? && s.url != "" && !Strings.IsSpace(s.url[0]) && !Strings.IsSpace(s.url[|s.url| - 1])
  {
    var r := CheckUrl(w);
    if !Strings.AllSpace(w.session.urlText) {
      var url := Strings.Strip(w.session.urlText);
      assert url != "" && !Strings.IsSpace(url[0]) && !Strings.IsSpace(url[|url| - 1]);
      assert r.signals == [FetchInfo(url, w.prefs.browser)];
    } else {
      assert r.signals == [];
    }
  }

  /** No download request among some signals. */
  predicate NoDownloadRequest(signals: seq<Signal>) {
    forall i :: 0 <= i < |signals| ==> !signals[i].DownloadAction?
  }

  /** One step of `NoDownloadWithoutReply`. */
  lemma QuietStep(w: Window, e: Event, sep: char)
    requires !w.buttons.download && !WorkerReply(e)
    ensures !Dispatch(w, e, sep).window.buttons.download
    ensures NoDownloadRequest(Dispatch(w, e, sep).signals)
  {
  }

  /** While Download is disabled and the worker sends no reply of any kind
      (a late reply to an earlier fetch counts as one), no event can enable
      it or send a download request. */
  lemma {:induction false} NoDownloadWithoutReply(w: Window, events: seq<Event>, sep: char)
    requires !w.buttons.download
    requires forall i :: 0 <= i < |events| ==> !WorkerReply(events[i])
    ensures !Run(w, events, sep).window.buttons.download
    ensures NoDownloadRequest(Run(w, events, sep).signals)
    decreases |events|
  {
    if events != [] {
      var first := Dispatch(w, events[0], sep);
      QuietStep(w, events[0], sep);
      NoDownloadWithoutReply(first.window, events[1..], sep);
      var rest := Run(first.window, events[1..], sep);
      assert Run(w, events, sep).signals == first.signals + rest.signals;
    }
  }

  /** After a download request the window cannot send another until the
      worker sends some reply, which need not be the answer to that download
      (see `StaleInfoAllowsSecondDownload`). */
  lemma OneDownloadInFlight(w: Window, events: seq<Event>, sep: char)
    requires !w.session.closed && w.buttons.download && w.session.currentUrl != ""
    requires forall i :: 0 <= i < |events| ==> !WorkerReply(events[i])
    ensures var started := Dispatch(w, ClickDownload, sep);
      && |started.signals| == 1 && started.signals[0].DownloadAction?
      && NoDownloadRequest(Run(started.window, events, sep).signals)
  {
    NoDownloadWithoutReply(Dispatch(w, ClickDownload, sep).window, events, sep);
  }

  lemma StickyStep(w: Window, e: Event, sep: char)
    requires w.session.isClosing
    ensures Dispatch(w, e, sep).window.session.isClosing
  {
  }

  /** Once the window has begun closing it stays so. */
  lemma {:induction false} ClosingIsSticky(w: Window, events: seq<Event>, sep: char)
    requires w.session.isClosing
    ensures Run(w, events, sep).window.session.isClosing
    decreases |events|
  {
    if events != [] {
      StickyStep(w, events[0], sep);
      ClosingIsSticky(Dispatch(w, events[0], sep).window, events[1..], sep);
    }
  }

  /** Closing during a download: the first close cancels and is refused;
      the worker's next answer, or a second close, is accepted and quits the
      worker thread, changing nothing else. */
  lemma CloseDuringDownload(w: Window, message: string, sep: char)
    requires !w.session.closed && w.buttons.cancel
    ensures var first := Dispatch(w, RequestClose, sep);
      var accepted := Step(first.window.(session := first.window.session.(closed := true)), [QuitWorker]);
      && first.signals == [TriggerCancel]
      && first.window.session.isClosing && !first.window.session.closed && !first.window.buttons.cancel
      && Dispatch(first.window, WorkerFinished, sep) == accepted
      && Dispatch(first.window, WorkerError(message), sep) == accepted
      && Dispatch(first.window, RequestClose, sep) == accepted
  {
  }

  /** Closing with no download running is accepted at once. */
  lemma CloseWhenIdle(w: Window, sep: char)
    requires !w.session.closed && !w.buttons.cancel
    ensures Dispatch(w, RequestClose, sep) == Step(w.(session := w.session.(closed := true)), [QuitWorker])
  {
  }

  /** A blank URL, by Return or by Paste, sends nothing and changes nothing
      but the field's text. */
  lemma BlankUrlDoesNothing(w: Window, clipboard: string, sep: char)
    requires !w.session.closed
    requires Strings.AllSpace(w.session.urlText) && Strings.AllSpace(clipboard)
    ensures Dispatch(w, PressReturn, sep) == Step(w, [])
    ensures Dispatch(w, ClickPaste(clipboard), sep) == Step(w.(session := w.session.(urlText := clipboard)), [])
  {
  }

  /** An error after a failed fetch re-enables Download with the URL of the
      previous successful fetch: clicking it downloads that earlier video. */
  lemma FailedFetchKeepsPreviousUrl(w: Window, clipboard: string, message: string, sep: char)
    requires !w.session.closed && !w.session.isClosing && w.session.currentUrl != ""
    requires !Strings.AllSpace(clipboard)
    ensures var fetch := Dispatch(w, ClickPaste(clipboard), sep);
      var failed := Dispatch(fetch.window, WorkerError(message), sep);
      var again := Dispatch(failed.window, ClickDownload, sep);
      && fetch.signals == [FetchInfo(Strings.Strip(clipboard), w.prefs.browser)]
      && failed.window.buttons.download && failed.window.session.currentUrl == w.session.currentUrl
      && again.signals == [DownloadAction(w.session.currentUrl,
                                          Options.Build(w.prefs.quality, Settings.GetDownloadPath(w.prefs.settings)),
                                          w.prefs.browser)]
  {
    var fetch := Dispatch(w, ClickPaste(clipboard), sep);
    PasteReachesHandler(w, clipboard, sep);
    var failed := Dispatch(fetch.window, WorkerError(message), sep);
    ErrorReachesHandler(fetch.window, message, sep);
    DownloadReachesHandler(failed.window, sep);
  }

  lemma PasteReachesHandler(w: Window, clipboard: string, sep: char)
    requires !w.session.closed
    ensures Dispatch(w, ClickPaste(clipboard), sep) == PasteFromClipboard(w, clipboard)
  {
  }

  lemma ErrorReachesHandler(w: Window, message: string, sep: char)
    requires !w.session.closed
    ensures Dispatch(w, WorkerError(message), sep) == OnError(w, message)
  {
  }

  lemma DownloadReachesHandler(w: Window, sep: char)
    requires !w.session.closed && w.buttons.download
    ensures Dispatch(w, ClickDownload, sep) == StartDownload(w)
  {
  }

  /** The URL field and the Paste button stay enabled while a fetch runs,
      so two fetches can be outstanding. The reply to the second one can
      then arrive after a download of the first video has started: it turns
      Download back on and Cancel off, and a second download request goes
      out although the first has not been answered. */
  lemma StaleInfoAllowsSecondDownload(w: Window, x: string, a: string, ix: Info, ia: Info, sep: char)
    requires !w.session.closed
    requires !Strings.AllSpace(x) && !Strings.AllSpace(a)
    requires CanonicalUrl(ix) != "" && CanonicalUrl(ia) != ""
    ensures var options := Options.Build(w.prefs.quality, Settings.GetDownloadPath(w.prefs.settings));
      var b := w.prefs.browser;
      var fetches := Run(w, [ClickPaste(x), ClickPaste(a)], sep);
      var first := Run(fetches.window, [WorkerInfoReady(ix), ClickDownload], sep);
      var second := Run(first.window, [WorkerInfoReady(ia), ClickDownload], sep);
      && fetches.signals == [FetchInfo(Strings.Strip(x), b), FetchInfo(Strings.Strip(a), b)]
      && first.signals == [DownloadAction(CanonicalUrl(ix), options, b)]
      && second.signals == [DownloadAction(CanonicalUrl(ia), options, b)]
  {
    TwoPastes(w, x, a, sep);
    var fetches := Run(w, [ClickPaste(x), ClickPaste(a)], sep);
    InfoThenDownload(fetches.window, ix, sep);
    InfoThenDownload(Run(fetches.window, [WorkerInfoReady(ix), ClickDownload], sep).window, ia, sep);
  }

  /** Running two events is dispatching one after the other. */
  lemma RunPair(w: Window, e1: Event, e2: Event, sep: char)
    ensures var s1 := Dispatch(w, e1, sep);
      var s2 := Dispatch(s1.window, e2, sep);
      Run(w, [e1, e2], sep) == Step(s2.window, s1.signals + s2.signals)
  {
    var s1 := Dispatch(w, e1, sep);
    var s2 := Dispatch(s1.window, e2, sep);
    assert Run(s2.window, [], sep) == Step(s2.window, []);
    assert [e2][1..] == [];
    assert Run(s1.window, [e2], sep) == Step(s2.window, s2.signals + []);
    assert [e1, e2][1..] == [e2];
  }

  /** Two pastes of non-blank text send two fetch requests. */
  lemma TwoPastes(w: Window, x: string, a: string, sep: char)
    requires !w.session.closed
    requires !Strings.AllSpace(x) && !Strings.AllSpace(a)
    ensures var r := Run(w, [ClickPaste(x), ClickPaste(a)], sep);
      && r.signals == [FetchInfo(Strings.Strip(x), w.prefs.browser), FetchInfo(Strings.Strip(a), w.prefs.browser)]
      && !r.window.session.closed && r.window.prefs == w.prefs
  {
    RunPair(w, ClickPaste(x), ClickPaste(a), sep);
    var s1 := Dispatch(w, ClickPaste(x), sep);
    PasteReachesHandler(w, x, sep);
    PasteReachesHandler(s1.window, a, sep);
  }

  /** An info reply followed by a click on Download requests a download of
      the URL that reply carried. */
  lemma InfoThenDownload(w: Window, info: Info, sep: char)
    requires !w.session.closed && CanonicalUrl(info) != ""
    ensures var r := Run(w, [WorkerInfoReady(info), ClickDownload], sep);
      && r.signals == [DownloadAction(CanonicalUrl(info),
                                      Options.Build(w.prefs.quality, Settings.GetDownloadPath(w.prefs.settings)),
                                      w.prefs.browser)]
      && !r.window.session.closed && r.window.prefs == w.prefs
  {
    RunPair(w, WorkerInfoReady(info), ClickDownload, sep);
    var s1 := Dispatch(w, WorkerInfoReady(info), sep);
    InfoReachesHandler(w, info, sep);
    DownloadReachesHandler(s1.window, sep);
  }

  /** A worker info reply that arrives while a download runs leaves the
      window as if idle: a close is then accepted at once, without the
      cancel a close during a download sends. */
  lemma StaleInfoLetsCloseSkipCancel(w: Window, info: Info, sep: char)
    requires !w.session.closed && w.buttons.cancel
    ensures Dispatch(w, RequestClose, sep).signals == [TriggerCancel]
    ensures var r := Dispatch(w, WorkerInfoReady(info), sep);
      && r.window.buttons == Buttons(true, false)
      && Dispatch(r.window, RequestClose, sep) == Step(r.window.(session := r.window.session.(closed := true)), [QuitWorker])
  {
    InfoReachesHandler(w, info, sep);
  }

  lemma InfoReachesHandler(w: Window, info: Info, sep: char)
    requires !w.session.closed
    ensures Dispatch(w, WorkerInfoReady(info), sep) == OnInfoReady(w, info)
  {
  }

  /** The Clear button stays usable during a download: it re-enables the
      inputs and forgets the URL but leaves Cancel enabled and sends no
      cancel. */
  lemma ClearDuringDownload(w: Window, sep: char)
    requires !w.session.closed && w.buttons.cancel
    ensures var r := Dispatch(w, ClickClear, sep);
      r.signals == [] && r.window.buttons.cancel && r.window.inputs.urlField && r.window.session.currentUrl == ""
  {
  }
}

=== FILE: main_window.dfy ===
/** The controller of ui/main_window.py with the widgets stripped away: every
    handler is a pure transition over a `Window` record, and what it sends to
    the background worker or shows in a message box comes back as `Signal`s. */
module MainWindow {
  import opened Wrappers
  import Strings
  import Settings
  import Options

  /** The items of the cookie-browser combo box, in order. */
  const BrowserLabels: seq<string> := ["None", "chrome", "edge", "firefox", "opera", "brave", "vivaldi"]

  /** Paths longer than this are elided in the location label. */
  const ShortPathLimit: nat := 30

  /** `get_short_path`: a path that fits is shown whole; a longer one as
      "..." followed by its last 27 characters. */
  function ShortPath(p: string): (r: string)
    ensures |r| <= ShortPathLimit
    ensures |p| <= ShortPathLimit ==> r == p
    ensures |p| > ShortPathLimit ==>
      |r| == ShortPathLimit && r[..3] == "..." && r[3..] == p[|p| - (|r| - 3)..]
  {
    if |p| > 30 then "..." + p[|p| - 27..] else p
  }

  /** Shortening a shortened path changes nothing. */
  lemma ShortPathIdempotent(p: string)
    ensures ShortPath(ShortPath(p)) == ShortPath(p)
  {
  }

  /** The text of the location label for a download directory. */
  function SaveToLabel(path: string): string {
    "Save to: " + ShortPath(path)
  }

  /** The status label; each constructor stands for one fixed text. */
  datatype Status =
    | Ready                       // "Ready"
    | FetchingInfo                // "Fetching video info..."
    | ReadyToDownload             // "Ready to download"
    | Cancelling                  // "Cancelling..."
    | CleaningUp                  // "Cleaning up..."
    | StartingDownload            // "Starting download..."
    | Downloading(percent: int)   // "Downloading: <percent>%"
    | Downloaded(filename: string)// "Downloaded : <filename>"
    | ErrorOccurred               // "Error occurred"

  /** The video card: whether it is shown and the data last put on it. */
  datatype Card = Card(visible: bool, title: string, duration: string, thumbnail: string)

  /** The progress bar: shown or not, indeterminate (range 0..0) or not, and
      its value. */
  datatype ProgressBar = ProgressBar(visible: bool, busy: bool, value: int)

  /** The Download and Cancel buttons: whether each is enabled. */
  datatype Buttons = Buttons(download: bool, cancel: bool)

  /** Whether each input widget is enabled: the URL field, the Change
      Location button and the quality and browser combos. */
  datatype Inputs = Inputs(urlField: bool, changeLocation: bool, qualityCombo: bool, browserCombo: bool)

  /** What the user has chosen: the texts of the two combos, the preferences
      and the location label showing the download directory. */
  datatype Prefs = Prefs(quality: string, browser: string, settings: Settings.Manager, locationLabel: string)

  /** The status label, the progress bar and the video card. */
  datatype Display = Display(status: Status, progress: ProgressBar, card: Card)

  /** The URL field's text, `current_url` ("" when none), `last_filename`
      (None until first set), `_is_closing`, and whether a close event was
      accepted. */
  datatype Session = Session(urlText: string, currentUrl: string, lastFilename: Option<string>, isClosing: bool, closed: bool)

  /** Everything the handlers read or write. */
  datatype Window = Window(buttons: Buttons, inputs: Inputs, prefs: Prefs, display: Display, session: Session)

  /** What a handler sends out: requests to the worker, the quit of its
      thread, and the message boxes it shows. */
  datatype Signal =
    | FetchInfo(url: string, browser: string)
    | DownloadAction(url: string, options: Options.DownloadOptions, browser: string)
    | TriggerCancel
    | QuitWorker
    | SuccessMessage
    | ErrorMessage(text: string)

  datatype Step = Step(window: Window, signals: seq<Signal>)

  /** The `percent` entry of a progress report: absent, a number (already
      truncated to an integer), or something `float()` or `int()` rejects
      (a non-number, or `nan` and `inf`, which `int()` refuses). A number
      outside the 32-bit range is kept here; `OnProgress` ignores it. */
  datatype PercentField = Absent | Percent(value: int) | Unparsable

  /** A progress report by its `status` entry. */
  datatype ProgressReport =
    | DownloadingReport(percent: PercentField)
    | FinishedReport(filename: Option<string>)
    | OtherReport

  /** The metadata dict of a fetched video, restricted to its string entries. */
  type Info = map<string, string>

  /** Neither the Download nor the Cancel button is enabled together with
      the other. */
  predicate ButtonsExclusive(w: Window) {
    !(w.buttons.download && w.buttons.cancel)
  }

  /** The inputs the download locks: all but the browser combo. */
  function LockInputs(i: Inputs): (r: Inputs)
    ensures !r.urlField && !r.changeLocation && !r.qualityCombo && r.browserCombo == i.browserCombo
  {
    i.(urlField := false, changeLocation := false, qualityCombo := false)
  }

  /** The inputs `on_finished` and `on_error` unlock: the same three. */
  function UnlockInputs(i: Inputs): (r: Inputs)
    ensures r.urlField && r.changeLocation && r.qualityCombo && r.browserCombo == i.browserCombo
  {
    i.(urlField := true, changeLocation := true, qualityCombo := true)
  }

  /** The window as `__init__` leaves it, built on the corrected
      `Settings.Load`: for a settings file that is not a JSON object or not
      valid text the source raises while building the window instead. */
  function Init(file: Settings.SettingsFile, home: string, sep: char): (w: Window)
    ensures w.prefs.settings == Settings.New(file, home, sep)
    ensures w.buttons == Buttons(false, false)
    ensures w.inputs == Inputs(true, true, true, true)
    ensures w.session == Session("", "", None, false, false)
    ensures w.prefs.quality == Options.QualityLabels[0]
    ensures w.prefs.browser in BrowserLabels
    ensures Settings.GetCookiesBrowser(w.prefs.settings) in BrowserLabels ==> w.prefs.browser == Settings.GetCookiesBrowser(w.prefs.settings)
    ensures Settings.GetCookiesBrowser(w.prefs.settings) !in BrowserLabels ==> w.prefs.browser == "None"
    ensures w.prefs.locationLabel == SaveToLabel(Settings.GetDownloadPath(w.prefs.settings))
    ensures w.display.status == Ready && !w.display.progress.visible && !w.display.card.visible
  {
    var settings := Settings.New(file, home, sep);
    var saved := Settings.GetCookiesBrowser(settings);
    Window(
      buttons := Buttons(download := false, cancel := false),
      inputs := Inputs(urlField := true, changeLocation := true, qualityCombo := true, browserCombo := true),
      prefs := Prefs(
        quality := Options.QualityLabels[0],
        browser := if saved in BrowserLabels then saved else BrowserLabels[0],
        settings := settings,
        locationLabel := SaveToLabel(Settings.GetDownloadPath(settings))),
      display := Display(
        status := Ready,
        progress := ProgressBar(false, false, -1),  // a fresh QProgressBar is reset to minimum - 1
        card := Card(false, "Video Title", "--:--", "")),
      session := Session(urlText := "", currentUrl := "", lastFilename := None, isClosing := false, closed := false))
  }

  /** `check_url`: a blank URL does nothing; otherwise the stripped URL is
      sent to the worker with the chosen browser, and Download is disabled
      while the fetch runs. */
  function CheckUrl(w: Window): (r: Step)
    ensures Strings.AllSpace(w.session.urlText) ==> r == Step(w, [])
    ensures !Strings.AllSpace(w.session.urlText) ==>
      && r.signals == [FetchInfo(Strings.Strip(w.session.urlText), w.prefs.browser)]
      && r.window.buttons == Buttons(false, w.buttons.cancel)
      && r.window.display.status == FetchingInfo
      && r.window.display.progress.visible && r.window.display.progress.busy
      && !r.window.display.card.visible
      && r.window.inputs == w.inputs && r.window.prefs == w.prefs && r.window.session == w.session
  {
    var url := Strings.Strip(w.session.urlText);
    if url == "" then
      Step(w, [])
    else
      Step(w.(buttons := w.buttons.(download := false),
              display := Display(FetchingInfo,
                                 w.display.progress.(visible := true, busy := true),
                                 w.display.card.(visible := false))),
           [FetchInfo(url, w.prefs.browser)])
  }

  /** `paste_from_clipboard`: the clipboard text replaces the URL and is
      checked. */
  function PasteFromClipboard(w: Window, clipboard: string): (r: Step)
    ensures r.window.session == w.session.(urlText := clipboard)
    ensures r.window.inputs == w.inputs && r.window.prefs == w.prefs
    ensures r.window.buttons.cancel == w.buttons.cancel
    ensures Strings.AllSpace(clipboard) ==> r.signals == [] && r.window.buttons == w.buttons
    ensures !Strings.AllSpace(clipboard) ==>
      r.signals == [FetchInfo(Strings.Strip(clipboard), w.prefs.browser)] && !r.window.buttons.download
  {
    CheckUrl(w.(session := w.session.(urlText := clipboard)))
  }

  /** Python's `a or b` on two optional strings: `a` unless it is missing or
      empty. */
  function Or(a: Option<string>, b: Option<string>): (r: Option<string>)
    ensures a.Some? && a.value != "" ==> r == a
    ensures !(a.Some? && a.value != "") ==> r == b
  {
    match a
    case Some(v) => if v != "" then a else b
    case None => b
  }

  /** The URL a download will use: `original_url` when present and
      non-empty, otherwise `webpage_url`; "" stands for neither (the source
      keeps None there, which behaves the same everywhere it is read). */
  function CanonicalUrl(info: Info): (u: string)
    ensures "original_url" in info && info["original_url"] != "" ==> u == info["original_url"]
    ensures !("original_url" in info && info["original_url"] != "") && "webpage_url" in info ==> u == info["webpage_url"]
    ensures !("original_url" in info && info["original_url"] != "") && "webpage_url" !in info ==> u == ""
  {
    Or(Get(info, "original_url"), Get(info, "webpage_url")).GetOr("")
  }

  /** The card `set_data` shows, with the placeholders for absent entries. */
  function CardFor(info: Info): (c: Card)
    ensures c.visible
    ensures c.title == (if "title" in info then info["title"] else "Unknown Title")
    ensures c.duration == (if "duration_string" in info then info["duration_string"] else "--:--")
    ensures c.thumbnail == (if "thumbnail" in info then info["thumbnail"] else "")
  {
    Card(true,
         Get(info, "title").GetOr("Unknown Title"),
         Get(info, "duration_string").GetOr("--:--"),
         Get(info, "thumbnail").GetOr(""))
  }

  /** `on_info_ready`: the card is filled, the canonical URL remembered,
      Download enabled and Cancel disabled. */
  function OnInfoReady(w: Window, info: Info): (r: Step)
    ensures r.signals == []
    ensures r.window.buttons == Buttons(true, false)
    ensures r.window.session == w.session.(currentUrl := CanonicalUrl(info))
    ensures r.window.display.card == CardFor(info)
    ensures r.window.display.status == ReadyToDownload
    ensures !r.window.display.progress.visible && !r.window.display.progress.busy
    ensures r.window.inputs == w.inputs && r.window.prefs == w.prefs
  {
    Step(w.(display := Display(ReadyToDownload,
                               w.display.progress.(visible := false, busy := false),
                               CardFor(info)),
            session := w.session.(currentUrl := CanonicalUrl(info)),
            buttons := Buttons(download := true, cancel := false)),
         [])
  }

  /** `cancel_download`: Cancel is disabled and the worker's cancel flag
      set. */
  function CancelDownload(w: Window): (r: Step)
    ensures r.signals == [TriggerCancel]
    ensures r.window == w.(buttons := Buttons(w.buttons.download, false),
                           display := w.display.(status := Cancelling))
  {
    Step(w.(display := w.display.(status := Cancelling),
            buttons := w.buttons.(cancel := false)),
         [TriggerCancel])
  }

  /** `start_download`: without a current URL nothing happens; otherwise
      Download, the URL input, the location button and the quality combo are
      disabled, Cancel enabled, and exactly one download request carries the
      URL, the options for the chosen quality and the chosen browser. The
      browser combo stays as it was. */
  function StartDownload(w: Window): (r: Step)
    ensures w.session.currentUrl == "" ==> r == Step(w, [])
    ensures w.session.currentUrl != "" ==>
      && r.signals == [DownloadAction(w.session.currentUrl,
                                      Options.Build(w.prefs.quality, Settings.GetDownloadPath(w.prefs.settings)),
                                      w.prefs.browser)]
      && r.window.buttons == Buttons(false, true)
      && r.window.inputs == LockInputs(w.inputs)
      && r.window.display.status == StartingDownload
      && r.window.display.progress.visible && r.window.display.progress.value == 0
      && r.window.prefs == w.prefs && r.window.session == w.session
  {
    if w.session.currentUrl == "" then
      Step(w, [])
    else
      var options := Options.Build(w.prefs.quality, Settings.GetDownloadPath(w.prefs.settings));
      Step(w.(buttons := Buttons(download := false, cancel := true),
              inputs := LockInputs(w.inputs),
              display := w.display.(status := StartingDownload,
                                    progress := w.display.progress.(visible := true, value := 0))),
           [DownloadAction(w.session.currentUrl, options, w.prefs.browser)])
  }

  /** `QProgressBar.setValue` takes a C `int`: a value outside this range
      raises OverflowError before the status text is set. */
  predicate FitsCInt(v: int) {
    -0x8000_0000 <= v < 0x8000_0000
  }

  /** `on_progress`: a downloading report moves the bar and the status (an
      unparsable percentage, or one `setValue` refuses, is ignored by the
      bare `except`), a finished report remembers the file name and fills
      the bar; nothing else changes. */
  function OnProgress(w: Window, report: ProgressReport): (r: Step)
    ensures r.signals == []
    ensures r.window.buttons == w.buttons && r.window.inputs == w.inputs && r.window.prefs == w.prefs
    ensures !report.FinishedReport? ==> r.window.session == w.session
    ensures report.OtherReport? || (report.DownloadingReport? && report.percent.Unparsable?) ==> r.window == w
    ensures report.DownloadingReport? && report.percent.Percent? && !FitsCInt(report.percent.value) ==> r.window == w
    ensures report.DownloadingReport? && report.percent.Absent? ==>
      r.window.display.progress.value == 0 && r.window.display.status == Downloading(0)
    ensures report.DownloadingReport? && report.percent.Percent? && FitsCInt(report.percent.value) ==>
      && r.window.display.progress.value == report.percent.value
      && r.window.display.status == Downloading(report.percent.value)
    ensures report.FinishedReport? ==>
      && r.window.session == w.session.(lastFilename := Some(report.filename.GetOr("Unknown")))
      && r.window.display.progress.value == 100 && r.window.display.status == w.display.status
  {
    match report
    case DownloadingReport(field) =>
      (match field
       case Unparsable => Step(w, [])
       case Absent =>
         Step(w.(display := w.display.(status := Downloading(0), progress := w.display.progress.(value := 0))), [])
       case Percent(p) =>
         if !FitsCInt(p) then Step(w, []) else
         Step(w.(display := w.display.(status := Downloading(p), progress := w.display.progress.(value := p))), []))
    case FinishedReport(filename) =>
      Step(w.(session := w.session.(lastFilename := Some(filename.GetOr("Unknown"))),
              display := w.display.(progress := w.display.progress.(value := 100))),
           [])
    case OtherReport => Step(w, [])
  }

  /** The file name `on_finished` reports: the remembered one, or "Unknown",
      cut to its base name when it contains the separator. */
  function DisplayName(lastFilename: Option<string>, sep: char): (r: string)
    ensures var f := lastFilename.GetOr("Unknown");
      sep !in r && |r| <= |f| && r == f[|f| - |r|..]
    ensures var f := lastFilename.GetOr("Unknown");
      sep in f ==> f[|f| - |r| - 1] == sep
    ensures var f := lastFilename.GetOr("Unknown");
      sep in f <==> |r| < |f|
  {
    var filename := lastFilename.GetOr("Unknown");
    if sep in filename then Strings.Basename(filename, sep) else filename
  }

  /** `closeEvent`: with Cancel enabled (a download is running) the window
      marks itself closing, cancels and stays open; otherwise the worker
      thread is told to quit and the close is accepted. */
  function CloseEvent(w: Window): (r: Step)
    ensures w.buttons.cancel ==>
      && r.signals == [TriggerCancel]
      && r.window.session == w.session.(isClosing := true)
      && r.window.buttons == Buttons(w.buttons.download, false)
      && r.window.inputs == w.inputs && r.window.prefs == w.prefs
      && r.window.display.status == Cancelling
    ensures !w.buttons.cancel ==> r == Step(w.(session := w.session.(closed := true)), [QuitWorker])
  {
    if w.buttons.cancel then
      CancelDownload(w.(session := w.session.(isClosing := true), display := w.display.(status := CleaningUp)))
    else
      Step(w.(session := w.session.(closed := true)), [QuitWorker])
  }

  /** `on_finished`: while closing it only closes again; otherwise it shows
      the file name, re-enables Download and the inputs the download
      disabled, disables Cancel and reports success. */
  function OnFinished(w: Window, sep: char): (r: Step)
    ensures w.session.isClosing ==> r == CloseEvent(w)
    ensures !w.session.isClosing ==>
      && r.signals == [SuccessMessage]
      && r.window.buttons == Buttons(true, false)
      && r.window.inputs == UnlockInputs(w.inputs)
      && r.window.display.status == Downloaded(DisplayName(w.session.lastFilename, sep))
      && r.window.display.progress.value == 100
      && r.window.prefs == w.prefs && r.window.session == w.session
  {
    if w.session.isClosing then
      CloseEvent(w)
    else
      Step(w.(display := w.display.(status := Downloaded(DisplayName(w.session.lastFilename, sep)),
                                    progress := w.display.progress.(value := 100)),
              buttons := Buttons(download := true, cancel := false),
              inputs := UnlockInputs(w.inputs)),
           [SuccessMessage])
  }

  /** `on_error`: while closing it only closes again; otherwise it hides the
      bar, re-enables Download and the inputs, disables Cancel and shows the
      message. The current URL is kept. */
  function OnError(w: Window, message: string): (r: Step)
    ensures w.session.isClosing ==> r == CloseEvent(w)
    ensures !w.session.isClosing ==>
      && r.signals == [ErrorMessage("An error occurred:\n" + message)]
      && r.window.buttons == Buttons(true, false)
      && r.window.inputs == UnlockInputs(w.inputs)
      && r.window.display.status == ErrorOccurred && !r.window.display.progress.visible
      && r.window.prefs == w.prefs && r.window.session == w.session
  {
    if w.session.isClosing then
      CloseEvent(w)
    else
      Step(w.(display := w.display.(status := ErrorOccurred,
                                    progress := w.display.progress.(visible := false)),
              buttons := Buttons(download := true, cancel := false),
              inputs := UnlockInputs(w.inputs)),
           [ErrorMessage("An error occurred:\n" + message)])
  }

  /** `reset_app_state` (the Clear button): URL and card cleared, Download
      disabled, all four inputs enabled. Cancel is left as it was. */
  function ResetAppState(w: Window): (r: Step)
    ensures r.signals == []
    ensures r.window.session == w.session.(urlText := "", currentUrl := "")
    ensures r.window.buttons == Buttons(false, w.buttons.cancel)
    ensures r.window.inputs == Inputs(true, true, true, true)
    ensures r.window.display.status == Ready
    ensures !r.window.display.progress.visible && !r.window.display.card.visible
    ensures r.window.prefs == w.prefs
  {
    Step(w.(session := w.session.(urlText := "", currentUrl := ""),
            display := Display(Ready,
                               w.display.progress.(visible := false),
                               w.display.card.(visible := false)),
            buttons := w.buttons.(download := false),
            inputs := Inputs(urlField := true, changeLocation := true, qualityCombo := true, browserCombo := true)),
         [])
  }

  /** `on_browser_changed`: the new browser is stored in the preferences. */
  function OnBrowserChanged(w: Window, text: string, outcome: Settings.SaveOutcome): (r: Step)
    ensures r.signals == []
    ensures Settings.GetCookiesBrowser(r.window.prefs.settings) == text
    ensures Settings.GetDownloadPath(r.window.prefs.settings) == Settings.GetDownloadPath(w.prefs.settings)
    ensures r.window == w.(prefs := w.prefs.(settings := r.window.prefs.settings))
  {
    Step(w.(prefs := w.prefs.(settings := Settings.SetCookiesBrowser(w.prefs.settings, text, outcome))), [])
  }

  /** `change_location`, given the directory the dialog returned ("" when
      it was dismissed): a chosen directory becomes the download path and
      the label shows it. */
  function ChangeLocation(w: Window, chosen: string, outcome: Settings.SaveOutcome): (r: Step)
    ensures r.signals == []
    ensures chosen == "" ==> r == Step(w, [])
    ensures chosen != "" ==>
      && Settings.GetDownloadPath(r.window.prefs.settings) == chosen
      && Settings.GetCookiesBrowser(r.window.prefs.settings) == Settings.GetCookiesBrowser(w.prefs.settings)
      && r.window.prefs.locationLabel == SaveToLabel(chosen)
      && r.window == w.(prefs := r.window.prefs.(quality := w.prefs.quality, browser := w.prefs.browser))
  {
    if chosen == "" then
      Step(w, [])
    else
      Step(w.(prefs := w.prefs.(settings := Settings.SetDownloadPath(w.prefs.settings, chosen, outcome),
                                locationLabel := SaveToLabel(chosen))),
           [])
  }
}

=== FILE: options.dfy ===
/** The options record `start_download` hands to the downloader: the
    destination directory plus the keys of the chosen quality preset. */
module Options {
  import opened Wrappers

  /** One entry of the `postprocessors` list. */
  datatype PostProcessor = PostProcessor(key: string, preferredCodec: string, preferredQuality: string)

  /** A preset of `quality_map`: the keys it sets, None for a key it leaves
      out. */
  datatype Preset = Preset(format: Option<string>, postprocessors: Option<seq<PostProcessor>>)

  /** The options dict: `paths.home` is always there, `format` and
      `postprocessors` only when a preset put them there. */
  datatype DownloadOptions = DownloadOptions(
    home: string,
    format: Option<string>,
    postprocessors: Option<seq<PostProcessor>>)

  /** The items of the quality combo box, in order. */
  const QualityLabels: seq<string> := ["Best Quality", "1080p", "720p", "480p", "Audio Only (MP3)"]

  const ExtractMp3: PostProcessor := PostProcessor("FFmpegExtractAudio", "mp3", "192")

  const NoPreset: Preset := Preset(None, None)

  const QualityMap: map<string, Preset> := map[
    "Best Quality" := NoPreset,
    "1080p" := Preset(Some("bestvideo[height<=1080]+bestaudio/best[height<=1080]"), None),
    "720p" := Preset(Some("bestvideo[height<=720]+bestaudio/best[height<=720]"), None),
    "480p" := Preset(Some("bestvideo[height<=480]+bestaudio/best[height<=480]"), None),
    "Audio Only (MP3)" := Preset(Some("bestaudio/best"), Some([ExtractMp3]))
  ]

  /** `quality_map.get(selection, {})`. */
  function PresetFor(quality: string): Preset {
    Get(QualityMap, quality).GetOr(NoPreset)
  }

  /** `opts.update(preset)`: each key the preset has replaces the option's
      value, the others are kept. */
  function Update(o: DownloadOptions, p: Preset): (r: DownloadOptions)
    ensures r.home == o.home
    ensures r.format == (if p.format.Some? then p.format else o.format)
    ensures r.postprocessors == (if p.postprocessors.Some? then p.postprocessors else o.postprocessors)
  {
    DownloadOptions(
      o.home,
      match p.format case Some(_) => p.format case None => o.format,
      match p.postprocessors case Some(_) => p.postprocessors case None => o.postprocessors)
  }

  /** Applying the same preset twice is applying it once. */
  lemma UpdateIdempotent(o: DownloadOptions, p: Preset)
    ensures Update(Update(o, p), p) == Update(o, p)
  {
  }

  /** The options `start_download` builds for a quality label and the
      configured download directory (the preset is applied twice there). */
  function Build(quality: string, downloadPath: string): (r: DownloadOptions)
    ensures r.home == downloadPath
    ensures quality == "Best Quality" || quality !in QualityLabels ==> r.format == None && r.postprocessors == None
    ensures quality == "1080p" ==>
      r.format == Some("bestvideo[height<=1080]+bestaudio/best[height<=1080]") && r.postprocessors == None
    ensures quality == "720p" ==>
      r.format == Some("bestvideo[height<=720]+bestaudio/best[height<=720]") && r.postprocessors == None
    ensures quality == "480p" ==>
      r.format == Some("bestvideo[height<=480]+bestaudio/best[height<=480]") && r.postprocessors == None
    ensures quality == "Audio Only (MP3)" ==>
      r.format == Some("bestaudio/best")
      && r.postprocessors == Some([PostProcessor("FFmpegExtractAudio", "mp3", "192")])
  {
    var opts := DownloadOptions(downloadPath, None, None);
    var opts := Update(opts, PresetFor(quality));
    Update(opts, PresetFor(quality))
  }

  /** The duplicated update changes nothing: one update gives the same
      options. */
  lemma BuildIsSingleUpdate(quality: string, downloadPath: string)
    ensures Build(quality, downloadPath) == Update(DownloadOptions(downloadPath, None, None), PresetFor(quality))
  {
    UpdateIdempotent(DownloadOptions(downloadPath, None, None), PresetFor(quality));
  }

  /** The presets are keyed exactly by the combo box items. */
  lemma PresetsCoverTheComboBox()
    ensures QualityMap.Keys == set l | l in QualityLabels
  {
  }
}

=== FILE: settings.dfy ===
/** The persisted preferences of core/settings.py: a string-keyed map kept in
    memory and mirrored to a JSON file. The file is abstracted to what loading
    it can observe, and every write to it has an outcome chosen by the
    environment. */
module Settings {
  import opened Wrappers

  const DownloadPathKey: string := "download_path"
  const CookiesBrowserKey: string := "cookies_browser"
  /** What `get_cookies_browser` reports when no browser was ever chosen. */
  const NoBrowser: string := "None"
  const DownloadsFolder: string := "Downloads"

  /** The settings file as `_load_settings` finds it. */
  datatype SettingsFile =
    | Missing                              // `os.path.exists` is false
    | Corrupt                              // opening or reading raised IOError, or parsing raised JSONDecodeError
    | Undecodable                          // bytes the text decoder rejects: UnicodeDecodeError, not caught
    | NotAnObject                          // well-formed JSON whose top level is not an object, e.g. `[]`
    | Stored(entries: map<string, string>) // a JSON object of strings

  /** How a `save_settings` call ends. Opening for writing truncates the
      file, so a failure after the open leaves a file that is not valid
      JSON (the dump is ASCII, so it is still valid text). */
  datatype SaveOutcome =
    | Written      // the whole map was dumped
    | OpenFailed   // `open(filename, 'w')` raised: the file is untouched
    | WriteFailed  // `json.dump` raised after truncation

  /** A `SettingsManager`: its default path, its in-memory map and the file
      it reads from and writes to. */
  datatype Manager = Manager(defaultDownloadPath: string, settings: map<string, string>, file: SettingsFile)

  /** `Path(dir) / name` for a `dir` already in pathlib's normal form, as
      `Path.home()` returns it: pathlib does not double a separator `dir`
      ends with, and an empty `dir` (the current directory) adds nothing.
      The collapsing of repeated separators and `.` components inside
      `dir` is not modelled. */
  function JoinPath(dir: string, name: string, sep: char): (r: string)
    ensures |r| >= |name| && r[|r| - |name|..] == name
    ensures dir == "" ==> r == name
    ensures dir != "" ==> |r| > |name| && r[|r| - |name| - 1] == sep
    ensures dir != "" && dir[|dir| - 1] == sep ==> r[..|r| - |name|] == dir
    ensures dir != "" && dir[|dir| - 1] != sep ==> r[..|r| - |name|] == dir + [sep]
  {
    if dir == "" then name
    else if dir[|dir| - 1] == sep then dir + name
    else dir + [sep] + name
  }

  /** `str(Path.home() / "Downloads")`, with the home directory and the path
      separator as parameters. */
  function DefaultDownloadPath(home: string, sep: char): string {
    JoinPath(home, DownloadsFolder, sep)
  }

  /** The map used whenever there is nothing usable to load. */
  function Defaults(defaultPath: string): (m: map<string, string>)
    ensures m.Keys == {DownloadPathKey} && m[DownloadPathKey] == defaultPath
  {
    map[DownloadPathKey := defaultPath]
  }

  /** `_load_settings`, corrected so that every file that is not a JSON
      object falls back to the defaults (see `LoadAsWritten`). */
  function Load(file: SettingsFile, defaultPath: string): (m: map<string, string>)
    ensures file.Stored? ==> m == file.entries
    ensures !file.Stored? ==> m == Defaults(defaultPath)
  {
    match file
    case Stored(entries) => entries
    case _ => Defaults(defaultPath)
  }

  /** `SettingsManager()`: computes the default path and loads the file
      with the corrected `Load` (see `LoadAsWritten` for the code as
      written). */
  function New(file: SettingsFile, home: string, sep: char): (m: Manager)
    ensures m.file == file && m.defaultDownloadPath == DefaultDownloadPath(home, sep)
    ensures m.settings == Load(file, m.defaultDownloadPath)
  {
    var d := DefaultDownloadPath(home, sep);
    Manager(d, Load(file, d), file)
  }

  /** `settings.get(key, default)`. */
  function Lookup(m: Manager, key: string, default: string): (r: string)
    ensures key in m.settings ==> r == m.settings[key]
    ensures key !in m.settings ==> r == default
  {
    Get(m.settings, key).GetOr(default)
  }

  /** `get_download_path`. */
  function GetDownloadPath(m: Manager): (p: string)
    ensures DownloadPathKey in m.settings ==> p == m.settings[DownloadPathKey]
    ensures DownloadPathKey !in m.settings ==> p == m.defaultDownloadPath
  {
    Lookup(m, DownloadPathKey, m.defaultDownloadPath)
  }

  /** `get_cookies_browser`. */
  function GetCookiesBrowser(m: Manager): (b: string)
    ensures CookiesBrowserKey in m.settings ==> b == m.settings[CookiesBrowserKey]
    ensures CookiesBrowserKey !in m.settings ==> b == NoBrowser
  {
    Lookup(m, CookiesBrowserKey, NoBrowser)
  }

  /** `save_settings`: the in-memory map is never touched; the file becomes
      the map, stays as it was, or is left truncated. */
  function Save(m: Manager, outcome: SaveOutcome): (r: Manager)
    ensures r.settings == m.settings && r.defaultDownloadPath == m.defaultDownloadPath
    ensures outcome == Written ==> forall d :: Load(r.file, d) == m.settings
    ensures outcome == OpenFailed ==> r.file == m.file
    ensures outcome == WriteFailed ==> forall d :: Load(r.file, d) == Defaults(d)
  {
    match outcome
    case Written => m.(file := Stored(m.settings))
    case OpenFailed => m
    case WriteFailed => m.(file := Corrupt)
  }

  /** `self.settings[key] = value; self.save_settings()`: only `key` changes
      in memory, whatever the save does. */
  function Put(m: Manager, key: string, value: string, outcome: SaveOutcome): (r: Manager)
    ensures r.defaultDownloadPath == m.defaultDownloadPath
    ensures r.settings.Keys == m.settings.Keys + {key} && r.settings[key] == value
    ensures forall k :: k in m.settings && k != key ==> r.settings[k] == m.settings[k]
    ensures outcome == Written ==> Load(r.file, r.defaultDownloadPath) == r.settings
    ensures outcome == OpenFailed ==> r.file == m.file
  {
    Save(m.(settings := m.settings[key := value]), outcome)
  }

  /** `set_download_path(path)`. */
  function SetDownloadPath(m: Manager, path: string, outcome: SaveOutcome): (r: Manager)
    ensures GetDownloadPath(r) == path
    ensures GetCookiesBrowser(r) == GetCookiesBrowser(m)
    ensures r.settings.Keys == m.settings.Keys + {DownloadPathKey}
    ensures forall k :: k in m.settings && k != DownloadPathKey ==> r.settings[k] == m.settings[k]
  {
    Put(m, DownloadPathKey, path, outcome)
  }

  /** `set_cookies_browser(browser)`. */
  function SetCookiesBrowser(m: Manager, browser: string, outcome: SaveOutcome): (r: Manager)
    ensures GetCookiesBrowser(r) == browser
    ensures GetDownloadPath(r) == GetDownloadPath(m)
    ensures r.settings.Keys == m.settings.Keys + {CookiesBrowserKey}
    ensures forall k :: k in m.settings && k != CookiesBrowserKey ==> r.settings[k] == m.settings[k]
  {
    Put(m, CookiesBrowserKey, browser, outcome)
  }

  /** Without a file the manager reports `<home>/Downloads` and "None". */
  lemma DefaultsWithoutFile(home: string, sep: char)
    ensures GetDownloadPath(New(Missing, home, sep)) == DefaultDownloadPath(home, sep)
    ensures GetCookiesBrowser(New(Missing, home, sep)) == NoBrowser
  {
  }

  /** A file that cannot be opened or read, or that is not valid JSON, is
      treated exactly as a missing one. */
  lemma CorruptFileLikeMissing(home: string, sep: char)
    ensures New(Corrupt, home, sep).settings == New(Missing, home, sep).settings
    ensures GetDownloadPath(New(Corrupt, home, sep)) == DefaultDownloadPath(home, sep)
    ensures GetCookiesBrowser(New(Corrupt, home, sep)) == NoBrowser
  {
  }

  /** A stored object that lacks a key falls back to that key's default. */
  lemma MissingKeysFallBack(entries: map<string, string>, home: string, sep: char)
    ensures DownloadPathKey !in entries ==>
      GetDownloadPath(New(Stored(entries), home, sep)) == DefaultDownloadPath(home, sep)
    ensures CookiesBrowserKey !in entries ==>
      GetCookiesBrowser(New(Stored(entries), home, sep)) == NoBrowser
    ensures DownloadPathKey in entries ==>
      GetDownloadPath(New(Stored(entries), home, sep)) == entries[DownloadPathKey]
    ensures CookiesBrowserKey in entries ==>
      GetCookiesBrowser(New(Stored(entries), home, sep)) == entries[CookiesBrowserKey]
  {
  }

  /** A failed save keeps the in-memory update made just before it. An open
      failure leaves the file as it was; a write failure loses the file, so
      the next start sees the defaults. */
  lemma FailedSaveKeepsUpdate(m: Manager, path: string, browser: string, outcome: SaveOutcome)
    requires outcome != Written
    ensures GetDownloadPath(SetDownloadPath(m, path, outcome)) == path
    ensures GetCookiesBrowser(SetCookiesBrowser(m, browser, outcome)) == browser
    ensures outcome == OpenFailed ==>
      SetDownloadPath(m, path, outcome).file == m.file && SetCookiesBrowser(m, browser, outcome).file == m.file
    ensures outcome == WriteFailed ==>
      Load(SetDownloadPath(m, path, outcome).file, m.defaultDownloadPath) == Defaults(m.defaultDownloadPath)
  {
  }

  /** Round trip: after a successful save, a fresh manager started on the
      same home directory reports the same path and browser. */
  lemma ReloadAfterSave(m: Manager, path: string, browser: string, home: string, sep: char)
    requires m.defaultDownloadPath == DefaultDownloadPath(home, sep)
    ensures var r := SetDownloadPath(m, path, Written);
      GetDownloadPath(New(r.file, home, sep)) == path
      && GetCookiesBrowser(New(r.file, home, sep)) == GetCookiesBrowser(m)
    ensures var r := SetCookiesBrowser(m, browser, Written);
      GetCookiesBrowser(New(r.file, home, sep)) == browser
      && GetDownloadPath(New(r.file, home, sep)) == GetDownloadPath(m)
  {
  }

  // ---- `_load_settings` as written -------------------------------------

  /** What `_load_settings` ends with, as written: a dict, some other JSON
      value that the source keeps as its settings, or an exception that
      escapes the `except` clause and so the `SettingsManager` constructor. */
  datatype Loaded = Dict(entries: map<string, string>) | NonDict | Raised

  /** `_load_settings` as written: a file that decodes to something other
      than an object is returned as it is, and a file the text decoder
      rejects raises past the handler, which names only JSONDecodeError and
      IOError. */
  function LoadAsWritten(file: SettingsFile, defaultPath: string): (l: Loaded)
    ensures file == NotAnObject <==> l.NonDict?
    ensures file == Undecodable <==> l.Raised?
    ensures l.Dict? ==> l.entries == Load(file, defaultPath)
  {
    match file
    case Missing => Dict(Defaults(defaultPath))
    case Corrupt => Dict(Defaults(defaultPath))
    case Undecodable => Raised
    case NotAnObject => NonDict
    case Stored(entries) => Dict(entries)
  }

  /** `self.settings.get(key, default)` on what was loaded, as written: None
      stands for the AttributeError a non-dict raises, or for a manager that
      was never built. */
  function LookupAsWritten(l: Loaded, key: string, default: string): (r: Option<string>)
    ensures !l.Dict? <==> r.None?
    ensures l.Dict? && key in l.entries ==> r == Some(l.entries[key])
    ensures l.Dict? && key !in l.entries ==> r == Some(default)
  {
    match l
    case Dict(entries) => Some(Get(entries, key).GetOr(default))
    case _ => None
  }

  /** A settings file holding `[]` makes the very first getter call raise,
      although a missing file, or one that is not valid JSON, is handled
      silently. */
  lemma NonObjectFileCrashes(home: string, sep: char)
    ensures var d := DefaultDownloadPath(home, sep);
      LookupAsWritten(LoadAsWritten(NotAnObject, d), CookiesBrowserKey, NoBrowser).None?
      && LookupAsWritten(LoadAsWritten(Corrupt, d), CookiesBrowserKey, NoBrowser) == Some(NoBrowser)
  {
  }

  /** A settings file that is not valid text (say, a stray byte 0xFF) makes
      the constructor itself raise, although a file that is not valid JSON
      is handled silently. */
  lemma UndecodableFileCrashes(home: string, sep: char)
    ensures var d := DefaultDownloadPath(home, sep);
      LoadAsWritten(Undecodable, d).Raised? && LoadAsWritten(Corrupt, d) == Dict(Defaults(d))
  {
  }

  /** The corrected `Load` gives the defaults for those two files and
      agrees with the code as written on every other file. */
  lemma LoadCorrectsOnlyNonObjects(file: SettingsFile, home: string, sep: char)
    ensures var d := DefaultDownloadPath(home, sep);
      file != NotAnObject && file != Undecodable ==> LoadAsWritten(file, d) == Dict(Load(file, d))
    ensures var d := DefaultDownloadPath(home, sep);
      Load(NotAnObject, d) == Load(Corrupt, d) && Load(Undecodable, d) == Load(Corrupt, d)
  {
  }
}

=== FILE: strings.dfy ===
/** The two Python string helpers the window relies on: `str.strip()` with no
    argument and the POSIX form of `os.path.basename`. */
module Strings {

  /** Python's `str.isspace` for a single character: the ASCII controls
      TAB..CR and FS..US, SPACE, NEL, NO-BREAK SPACE and the Unicode space
      separators and line/paragraph separators. */
  predicate IsSpace(c: char) {
    || ('\t' <= c <= '\r')
    || ('\U{1C}' <= c <= '\U{1F}')
    || c == ' '
    || c == '\U{85}'
    || c == '\U{A0}'
    || c == '\U{1680}'
    || ('\U{2000}' <= c <= '\U{200A}')
    || c == '\U{2028}'
    || c == '\U{2029}'
    || c == '\U{202F}'
    || c == '\U{205F}'
    || c == '\U{3000}'
  }

  /** The 29 code points CPython's `str.isspace` accepts, one by one. */
  const PythonWhitespace: set<char> := {
    '\t', '\n', '\U{0B}', '\U{0C}', '\r',
    '\U{1C}', '\U{1D}', '\U{1E}', '\U{1F}', ' ',
    '\U{85}', '\U{A0}', '\U{1680}',
    '\U{2000}', '\U{2001}', '\U{2002}', '\U{2003}', '\U{2004}', '\U{2005}',
    '\U{2006}', '\U{2007}', '\U{2008}', '\U{2009}', '\U{200A}',
    '\U{2028}', '\U{2029}', '\U{202F}', '\U{205F}', '\U{3000}'
  }

  /** The ranges of `IsSpace` are exactly that table. */
  lemma IsSpaceIsPythonWhitespace(c: char)
    ensures IsSpace(c) <==> c in PythonWhitespace
  {
  }

  predicate AllSpace(s: string) {
    forall i :: 0 <= i < |s| ==> IsSpace(s[i])
  }

  /** Drops the leading whitespace. */
  function TrimStart(s: string): (r: string)
    ensures |r| <= |s| && r == s[|s| - |r|..]
    ensures AllSpace(s[..|s| - |r|])
    ensures r != [] ==> !IsSpace(r[0])
    decreases |s|
  {
    if |s| > 0 && IsSpace(s[0]) then
      var r := TrimStart(s[1..]);
      assert s[1..][|s| - 1 - |r|..] == s[|s| - |r|..];
      assert s[1..][..|s| - 1 - |r|] == s[1..|s| - |r|];
      assert s[..|s| - |r|] == [s[0]] + s[1..|s| - |r|];
      AllSpaceConcat([s[0]], s[1..|s| - |r|]);
      r
    else
      s
  }

  /** Drops the trailing whitespace. */
  function TrimEnd(s: string): (r: string)
    ensures |r| <= |s| && r == s[..|r|]
    ensures AllSpace(s[|r|..])
    ensures r != [] ==> !IsSpace(r[|r| - 1])
    decreases |s|
  {
    if |s| > 0 && IsSpace(s[|s| - 1]) then
      var r := TrimEnd(s[..|s| - 1]);
      assert s[..|s| - 1][|r|..] == s[|r|..|s| - 1];
      assert s[|r|..] == s[|r|..|s| - 1] + [s[|s| - 1]];
      AllSpaceConcat(s[|r|..|s| - 1], [s[|s| - 1]]);
      r
    else
      s
  }

  /** `r` is the slice `s[i..i + |r|]` and everything of `s` around it is
      whitespace. */
  ghost predicate TrimmedAt(s: string, i: int, r: string) {
    && 0 <= i <= |s| - |r|
    && s[i..i + |r|] == r
    && AllSpace(s[..i])
    && AllSpace(s[i + |r|..])
  }

  lemma AllSpaceConcat(a: string, b: string)
    requires AllSpace(a) && AllSpace(b)
    ensures AllSpace(a + b)
  {
    assert forall k :: 0 <= k < |a + b| ==> (a + b)[k] == if k < |a| then a[k] else b[k - |a|];
  }

  /** Python's `s.strip()`: the whitespace-free core of `s`, which is empty
      exactly when `s` is blank. */
  function Strip(s: string): (r: string)
    ensures r != [] ==> !IsSpace(r[0]) && !IsSpace(r[|r| - 1])
    ensures r == [] <==> AllSpace(s)
  {
    var t := TrimStart(s);
    var r := TrimEnd(t);
    StripCore(s, t, r);
    r
  }

  /** What `Strip` removes is whitespace at the two ends and nothing else:
      its result sits in `s` right after the leading whitespace. */
  lemma StripIsTrim(s: string)
    ensures TrimmedAt(s, |s| - |TrimStart(s)|, Strip(s))
  {
    StripCore(s, TrimStart(s), Strip(s));
  }

  lemma StripCore(s: string, t: string, r: string)
    requires |t| <= |s| && t == s[|s| - |t|..] && AllSpace(s[..|s| - |t|])
    requires t != [] ==> !IsSpace(t[0])
    requires |r| <= |t| && r == t[..|r|] && AllSpace(t[|r|..])
    requires r != [] ==> !IsSpace(r[|r| - 1])
    ensures TrimmedAt(s, |s| - |t|, r)
    ensures r != [] ==> !IsSpace(r[0]) && !IsSpace(r[|r| - 1])
    ensures r == [] <==> AllSpace(s)
  {
    var i := |s| - |t|;
    assert s[i..] == t;
    assert s[i..i + |r|] == t[..|r|];
    assert s[i + |r|..] == t[|r|..];
    if r == [] {
      BlankWhenBothTrimsEmpty(s, i, t);
    }
  }

  lemma BlankWhenBothTrimsEmpty(s: string, i: int, t: string)
    requires 0 <= i <= |s| && t == s[i..]
    requires AllSpace(s[..i]) && AllSpace(t)
    ensures AllSpace(s)
  {
    assert s == s[..i] + t;
    AllSpaceConcat(s[..i], t);
  }

  /** The text after the last `sep` in `s`; all of `s` when it has none. */
  function AfterLast(s: string, sep: char): (r: string)
    ensures |r| <= |s| && r == s[|s| - |r|..]
    ensures sep !in r
    ensures |r| < |s| ==> s[|s| - |r| - 1] == sep
    decreases |s|
  {
    if |s| == 0 || s[|s| - 1] == sep then
      []
    else
      var r := AfterLast(s[..|s| - 1], sep);
      r + [s[|s| - 1]]
  }

  /** On a POSIX system `os.path.basename(p)` is the text after the last
      separator. */
  function Basename(p: string, sep: char): (r: string)
    ensures sep !in r
    ensures |r| <= |p| && r == p[|p| - |r|..]
    ensures sep in p <==> |r| < |p|
    ensures sep in p ==> p[|p| - |r| - 1] == sep
  {
    AfterLast(p, sep)
  }
}

=== FILE: wrappers.dfy ===
/** Optional values, used wherever the source distinguishes "key absent" or
    "attribute not set yet" from a present value. */
module Wrappers {

  datatype Option<+T> = None | Some(value: T) {

    /** What Python's `d.get(k, default)` yields once the lookup is done:
        the found value, else the fallback. */
    function GetOr(default: T): T {
      if Some? then value else default
    }
  }

  /** Looks a key up in a map, returning None when it is absent. */
  function Get<K, V>(m: map<K, V>, k: K): (r: Option<V>)
    ensures r.Some? <==> k in m
    ensures r.Some? ==> r.value == m[k]
  {
    if k in m then Some(m[k]) else None
  }
}
